=== FILE: README.md ===
# Author/Book relationship bookkeeping

A Dafny model of the two NestJS services that keep the many-to-many link between
authors and books in a MongoDB database. The database has no joins and no
transactions. Each document keeps its own list of the other side's identifiers:
an author has `bookIds` and a book has `authorIds`. The book service is the only
place that writes compensating back-references. It checks that identifiers exist, diffs the old
and new author lists, and saves author documents to compensate. The author
service creates authors with no books. It checks book identifiers on update, but it
never writes a book.

State is two finite maps, `Store(authors, books)`, keyed by `ObjectId`. Every
service method is a pure transition. It returns a `Step`: the call's outcome
(`Ok` or `Err(Failure(NotFound | BadRequest, messages))`) together with the
collections after every write it issued. Carrying the store on the error side
lets the model state "a failure writes nothing" as a property to prove, rather
than building it into the type.

Modules:

- `Ids` (`ids.dfy`): identifiers, with an injective string form and its parse.
- `Outcomes` (`outcomes.dfy`): optional request fields and exception kinds.
- `Seqs` (`seqs.dfy`): the `filter(x => !ys.includes(x))` filter, the old/new diff, and removing one id.
- `Store` (`store.dfy`): documents, collections, `findByIds`, and the link invariant `Linked`.
- `BookService` (`book_service.dfy`): `findAll`, `findBookOrFail`, `checkIfAuthorsExist`, `updateAuthors`, `deleteBooksFromAuthor`, `create`, `remove`, `update`.
- `AuthorService` (`author_service.dfy`): `create`, `findOne`, `remove`, `update`.
- `LinkInvariant` (`link_invariant.dfy`): what each operation does to the invariant
  "book b is in author a's `bookIds` ⇔ author a is in book b's `authorIds`".

Behaviour worth noting; the model follows the code:

- When an author is stripped of its last book, nothing cascades. `deleteBooksFromAuthor` always saves the author, even with an empty list. No author or book is ever deleted because its list became empty.
- A failed record validation in `create` raises a NotFound exception that carries the constraint messages. It is not a separate validation-error kind.
- A missing book in `findBookOrFail` is a BadRequest. A missing author anywhere is a NotFound.
- Nothing enforces a minimum of one author: the `minItems: 1` on the request body is API documentation only. `update` runs no record validation at all.
- Author `update` and `remove` do no compensation. Removing an author keeps the invariant, which speaks only of stored authors (`LinkInvariant.AuthorRemoveKeepsLinks`), but it leaves books that still list the deleted author (`LinkInvariant.AuthorRemoveStrandsBooks`). Such a book can then be neither removed nor updated (`LinkInvariant.StrandedBookCannotUpdate`). Updating an author's list can break the invariant (`LinkInvariant.AuthorUpdateDropUnlinks`, with a concrete instance in `LinkInvariant.AuthorUpdateCanUnlink`).
- Book `update` without an author list still diffs against an empty desired list. It therefore strips the book from every author, while the merged book keeps its old list (`LinkInvariant.BookUpdateWithoutAuthorsUnlinks`).
- `create` saves the back-references twice: once in `updateAuthors` and once in the loop after it. Both saves start from the same snapshot, so the id is prepended once (`BookService.CreateLinksAuthors`, `BookService.SaveEachTwice`).

Field names drift in the source. The entities and tests call the relationship fields `authors`/`books`. The book service uses `authorIds`/`bookIds`. The author service writes `books`. The model has one field per side: `Author.bookIds` and `Book.authorIds`. The author update request's list is `UpdateAuthorDto.bookIds`.

## Model

| member | source | states |
|---|---|---|
| `Seqs.Minus` | src/book/book.service.ts:103-108 | the filter keeps exactly the entries of the first list that are absent from the second, and a duplicate-free input gives a duplicate-free output |
| `Seqs.MinusCounts` | src/book/book.service.ts:103-108 | an excluded entry is dropped at every occurrence, and every other entry keeps all of its occurrences |
| `Seqs.MinusAppend` | src/book/book.service.ts:103-108 | the filter keeps relative order because it distributes over concatenation |
| `Seqs.MinusDisjoint` | src/book/book.service.ts:103-108 | filtering by a list that shares no entry with the input returns the input unchanged |
| `Seqs.Without` | src/book/book.service.ts:161-163 | dropping one identifier removes every copy of it and keeps every other identifier that was present |
| `Seqs.Diff` | src/book/book.service.ts:103-108 | removed is exactly persisted minus desired, added is exactly desired minus persisted, and each half is duplicate-free when its source list is |
| `Seqs.DiffDisjoint` | src/book/book.service.ts:103-108 | no identifier is both removed and added |
| `Seqs.DiffEmptyIff` | src/book/book.service.ts:103-108 | both halves are empty if and only if the two lists hold the same entries, so identical lists give two empty halves |
| `Seqs.DiffOrderIndependent` | src/book/book.service.ts:103-108 | permuting either input list does not change which entries are removed or added |
| `Ids.ParseToString` | src/book/book.service.ts:128-130 | parsing an identifier's string form gives the same identifier back |
| `Ids.ToStringInjective` | src/book/book.service.ts:96-101 | two identifiers have the same string form exactly when they are equal |
| `Ids.InStrings` | src/book/book.service.ts:96-104 | a string is among a list's string forms exactly when its parse is among the identifiers |
| `Store.FoundKeys` | src/book/book.service.ts:131-136 | `findByIds` matches each requested existing identifier once, and it matches as many as were requested if and only if all exist and none repeats |
| `Store.FindByIds` | src/book/book.service.ts:131-134 | `findByIds` returns the stored document of every key it matched, in the order of `FoundKeys`, and nothing else (also src/author/author.service.ts:61) |
| `Store.IdsOfFound` | src/book/book.service.ts:55 | in a collection where each document is stored under its own id, the documents found carry exactly the identifiers found |
| `BookService.FindAll` | src/book/book.service.ts:24-37 | a missing author gives NotFound "Author with id was not found"; otherwise the result is exactly the stored books that author lists, or all books when no author is given |
| `BookService.FindBookOrFail` | src/book/book.service.ts:169-173 | returns the stored book if present; otherwise BadRequest "Book with id was not found" (`findOne` returns this) |
| `BookService.FindAfterCreate` | src/book/book.service.ts:39-75 | after a successful `create`, `findBookOrFail` of the new id returns the book with the request's fields and authors |
| `BookService.FindAfterRemove` | src/book/book.service.ts:81-89 | after a successful `remove`, `findBookOrFail` of that id fails with BadRequest and every other book is found as before |
| `BookService.FindAfterUpdate` | src/book/book.service.ts:91-125 | after a successful `update`, `findBookOrFail` returns the stored book merged with the request |
| `BookService.CheckIfAuthorsExist` | src/book/book.service.ts:127-142 | succeeds if and only if every requested author exists and none is repeated, and returns their documents in request order; otherwise NotFound; an absent or empty list succeeds with nothing |
| `BookService.DuplicateRequestFails` | src/book/book.service.ts:136-140 | an author that resolves alone fails when requested twice |
| `BookService.Apply` | src/book/book.service.ts:146-150 | the author document a compensator saves (`{ ...author, ...authorToUpdate }`) differs from the snapshot only in `bookIds` (also lines 160-164) |
| `BookService.SaveEach` | src/book/book.service.ts:144-167 | the compensator loop saves one edited snapshot document per author and leaves every other author as it was |
| `BookService.SaveEachOverrides` | src/book/book.service.ts:150-151 | each save replaces the whole document, so the loop's result is the old collection overridden by what the snapshot alone writes |
| `BookService.SaveEachTwice` | src/book/book.service.ts:64-73 | replaying the saves from the same snapshot changes nothing, so `create`'s two passes prepend the id once |
| `BookService.SaveResolved` | src/book/book.service.ts:144-167 | for resolved identifiers the compensator writes exactly those authors, deletes none and keeps each under its own id |
| `BookService.UpdateAuthors` | src/book/book.service.ts:144-153 | each snapshot author is saved with the book id in front of its previous list and every other field unchanged; other authors are untouched |
| `BookService.DeleteBooksFromAuthor` | src/book/book.service.ts:155-167 | each snapshot author is saved with the book id filtered out, even when the list becomes empty; no author is deleted and others are untouched |
| `BookService.Create` | src/book/book.service.ts:39-75 | fails with NotFound before any write when an author is missing or repeated, or when validation reports errors; on success the saved book has the request's fields and exactly the resolved author ids |
| `BookService.CreateLinksAuthors` | src/book/book.service.ts:64-73 | after `create`, each resolved author has the new id followed by its previous list, and no other author is written |
| `BookService.Remove` | src/book/book.service.ts:81-89 | a missing book gives BadRequest and unresolvable stored authors give NotFound, both with no write; otherwise exactly the listed authors lose the book and only the book is deleted |
| `BookService.MergeBook` | src/book/book.service.ts:109 | the merged book keeps its id; each of title, iban, publishedAt and the author list is the request's value when present and the stored one otherwise |
| `BookService.MergeBookIdempotent` | src/book/book.service.ts:109 | applying the same patch twice gives the same record as applying it once |
| `BookService.AuthorDiff` | src/book/book.service.ts:96-108 | the string-form diff parses back to persisted minus desired and desired minus persisted over the identifiers |
| `BookService.StringDiffIsIdDiff` | src/book/book.service.ts:96-108 | filtering string forms selects the same identifiers, in the same order, as filtering the identifiers themselves |
| `BookService.AuthorDiffOfEmpty` | src/book/book.service.ts:96-101 | an absent desired list removes every persisted author, and an empty persisted list adds every desired author |
| `BookService.StripRemoved` | src/book/book.service.ts:111-116 | removed authors are re-checked; a failure writes nothing, and success strips the book from exactly those authors |
| `BookService.LinkAdded` | src/book/book.service.ts:119-124 | added authors are re-checked, then exactly those authors get the book prepended; the book collection is untouched |
| `BookService.Update` | src/book/book.service.ts:91-125 | the desired list is checked before the book is read (NotFound first, then BadRequest for a missing book); a removed author that no longer resolves gives NotFound with no write; in a well-keyed store it succeeds if and only if the desired list resolves, the book exists and its removed authors resolve; on success the book is stored merged with the request |
| `BookService.UpdateFailureWritesNothing` | src/book/book.service.ts:111-124 | every failing `update` leaves both collections unchanged, because the check issued after the save cannot fail |
| `BookService.UpdateCompensates` | src/book/book.service.ts:111-124 | after a successful `update`, removed authors lose the book, added authors get it prepended, and authors in both lists or neither are not written |
| `AuthorService.Create` | src/author/author.service.ts:23-31 | saves a new author with the request's name and birthday and an empty book list, and touches no book |
| `AuthorService.FindOne` | src/author/author.service.ts:33-40 | returns the stored author, or NotFound "Author with id was not found" |
| `AuthorService.FindAfterCreate` | src/author/author.service.ts:23-31 | after `create`, `findOne` of the new id returns the new author with the request's name and birthday and no books |
| `AuthorService.FindAfterRemove` | src/author/author.service.ts:42-50 | after `remove`, `findOne` of that id fails with NotFound and every other author is found as before |
| `AuthorService.FindAfterUpdate` | src/author/author.service.ts:52-73 | after a successful `update`, `findOne` returns the stored author merged with the request |
| `AuthorService.Remove` | src/author/author.service.ts:42-50 | a missing author gives NotFound with no write; otherwise exactly that author is deleted and no book is written |
| `AuthorService.MergeAuthor` | src/author/author.service.ts:70 | the request's fields override the stored ones field by field, absent fields keep their old values, and the request's list replaces the old one |
| `AuthorService.MergeAuthorIdempotent` | src/author/author.service.ts:70 | applying the same patch twice gives the same record as applying it once |
| `AuthorService.Update` | src/author/author.service.ts:52-73 | a missing author gives NotFound; a missing or repeated book id gives NotFound with no write; otherwise the merged record is written and no book is written |
| `LinkInvariant.BookCreateKeepsLinks` | src/book/book.service.ts:39-75 | book `create` with a fresh id preserves the two-way link invariant |
| `LinkInvariant.BookCreateListsOnce` | src/book/book.service.ts:58-72 | after a successful `create` with a fresh id, each requested author lists the new book exactly once |
| `LinkInvariant.BookRemoveKeepsLinks` | src/book/book.service.ts:81-89 | book `remove` preserves the two-way link invariant |
| `LinkInvariant.BookUpdateKeepsLinks` | src/book/book.service.ts:91-125 | book `update` with an author list preserves the two-way link invariant |
| `LinkInvariant.RelinkKeepsLinks` | src/book/book.service.ts:98-124 | replacing a book while stripping it from the authors that left its list and prepending it to those that joined keeps the invariant |
| `LinkInvariant.BookUpdateWithoutAuthorsUnlinks` | src/book/book.service.ts:92-109 | book `update` without an author list strips the book from every author while the book keeps its old list |
| `LinkInvariant.AuthorCreateKeepsLinks` | src/author/author.service.ts:23-31 | author `create` with a fresh id preserves the invariant |
| `LinkInvariant.AuthorRemoveKeepsLinks` | src/author/author.service.ts:42-50 | author `remove` preserves the invariant, since the invariant only relates stored authors |
| `LinkInvariant.AuthorRemoveStrandsBooks` | src/author/author.service.ts:42-50 | after an author is removed, a book that listed it still does, and a later book `remove` of that book fails with NotFound |
| `LinkInvariant.StrandedBookCannotUpdate` | src/book/book.service.ts:91-116 | after an author is removed, every book `update` of a book that listed it fails with NotFound and writes nothing |
| `LinkInvariant.AuthorUpdateDropUnlinks` | src/author/author.service.ts:60-72 | every successful author `update` that drops a book listing the author leaves that book still listing the author, so the store is not linked afterwards |
| `LinkInvariant.AuthorUpdateCanUnlink` | src/author/author.service.ts:60-72 | a concrete linked two-document store that an author `update` dropping the book unlinks, showing the premises above can hold |

## Left out

- HTTP controllers, module wiring, Swagger metadata and the older `crud` author module are not modelled. Only the two services are.
- The author service's `findAll` (src/author/author.service.ts:19-21) returns the whole collection. It has no relationship logic.
- Asynchrony and interleaving: each service call is one atomic, sequential transition. Lost updates between concurrent requests are not modelled.
- Store-assigned values are parameters. The new document's `_id` is the `newId` argument, and the invariant lemmas assume it is fresh. `createdAt` and `updatedAt` are not modelled.
- AuthorService.Update: the stored list keeps the request's identifiers as raw strings in the source. The saved record is `{ ...toUpdate, ...author }` (src/author/author.service.ts:70), the validation pipe does not transform the body (src/main.ts:9), and the ObjectIDs built at line 60 serve only the existence query. A later book-side strip calls `book.equals(...)` on each entry of that list (src/book/book.service.ts:161-162), which throws a TypeError on a string. Book `remove` of a book listing that author, or a book `update` that drops the author, therefore fails with a server error. When other authors were stripped before it, the write is partial. The model gives identifiers one representation, so there `BookService.Remove` and `BookService.Update` succeed in that case.
- Ids.InStrings: request identifier strings are taken to be lower-case hexadecimal, the form `toString()` produces. In the source, `new ObjectID(s)` also accepts upper-case hex, but the `update` diff (src/book/book.service.ts:96-108) compares the request's raw strings with the stored ids' lower-case forms. An upper-case spelling of a kept author is therefore both removed and added there: the book is stripped from that author and then prepended again, which moves it to the front of the author's list. The model computes an empty diff for it and writes nothing to that author.
- Malformed identifier strings are not modelled. In the source, `new ObjectID(s)` throws on them. Here every identifier is well formed, and `ToString` and `Parse` are mutual inverses.
- Record validation (class-validator `validate`, including the `@Min`/`@Max` on `iban`) is the parameter `validate: Book -> seq<string>`. That library is not part of this model. The validator is given the book with its new id already set, while the source validates before the id exists.
- `findByIds` returns documents in the store's own order. The model uses first-request order. `BookService.FindAll` returns a set of books, not an ordered list.
- HTTP status codes are reduced to two exception kinds, NotFound and BadRequest.
- `author.bookIds` may be undefined in the source. `updateAuthors` then writes `[bookId]`, while `findAll` with that author (src/book/book.service.ts:32) and `deleteBooksFromAuthor` (src/book/book.service.ts:161) throw a TypeError on it. Here every author has a list: an empty list gives the same `[bookId]` in `updateAuthors`, and `findAll` and `deleteBooksFromAuthor` treat it as empty instead of failing.
- A request body without its author list (book `create`) or book list (author `update`) makes the source throw a TypeError when it calls `.map`. Those lists are required fields here.
- BookService.UpdateAuthors: states the saved document only for snapshots without a repeated id. With a repeated id the last save wins, and that case is not stated.
- BookService.DeleteBooksFromAuthor: states the saved document only for snapshots without a repeated id. With a repeated id the last save wins, and that case is not stated.
- BookService.SaveEach: states the saved document only for snapshots without a repeated id. The callers pass resolved, duplicate-free snapshots.

=== FILE: author_service.dfy ===
/** The author service. It creates authors with no books, and it reads the book
    collection only to check identifiers; it never writes a book, so it issues
    no compensating write.
 */
module AuthorService {
  import opened Ids
  import opened Outcomes
  import opened Seqs
  import opened Store

  /** The NotFound message of the book existence check in `update`. */
  const BooksNotResolved := "Check if Book id is correct or it is not a duplicate"

  /** The body of a create request. */
  datatype CreateAuthorDto = CreateAuthorDto(firstName: string, lastName: string, birthday: Date)

  /** The body of an update request: the name and birthday may be absent; the
      relationship list is read unconditionally. */
  datatype UpdateAuthorDto = UpdateAuthorDto(
    firstName: Option<string>,
    lastName: Option<string>,
    birthday: Option<Date>,
    bookIds: seq<ObjectId>)

  /** `create(dto)`: save a new author under the store-assigned `newId`, with the
      name and birthday of the request and no books. */
  function Create(s: Store, dto: CreateAuthorDto, newId: ObjectId): (r: Step<Author>)
    ensures r.out.Ok?
    ensures r.out.value.id == newId && r.out.value.bookIds == []
    ensures && r.out.value.firstName == dto.firstName
            && r.out.value.lastName == dto.lastName
            && r.out.value.birthday == dto.birthday
    ensures r.store == Store(s.authors[newId := r.out.value], s.books)
  {
    var author := Author(newId, dto.firstName, dto.lastName, dto.birthday, []);
    Step(Ok(author), s.(authors := s.authors[newId := author]))
  }

  /** `findOne(id)`. */
  function FindOne(s: Store, id: ObjectId): (r: Result<Author>)
    ensures r.Ok? <==> id in s.authors
    ensures r.Ok? ==> r.value == s.authors[id]
    ensures r.Err? ==> r.failure == Failure(NotFound, [AuthorNotFound(id)])
  {
    if id in s.authors then Ok(s.authors[id]) else Err(Failure(NotFound, [AuthorNotFound(id)]))
  }

  /** `remove(id)`: confirm the author exists, then delete it and nothing else. */
  function Remove(s: Store, id: ObjectId): (r: Step<()>)
    ensures r.out.Ok? <==> id in s.authors
    ensures r.out.Err? ==> r == Step(Err(Failure(NotFound, [AuthorNotFound(id)])), s)
    ensures r.store.books == s.books
    ensures r.out.Ok? ==> r.store.authors.Keys == s.authors.Keys - {id}
    ensures forall k :: k in r.store.authors ==> r.store.authors[k] == s.authors[k]
  {
    var found := FindOne(s, id);
    if found.Err? then Step(Err(found.failure), s)
    else Step(Ok(()), s.(authors := s.authors - {id}))
  }

  /** After `create`, `findOne` of the new identifier returns the new author, with no books. */
  lemma FindAfterCreate(s: Store, dto: CreateAuthorDto, newId: ObjectId)
    ensures FindOne(Create(s, dto, newId).store, newId)
         == Ok(Author(newId, dto.firstName, dto.lastName, dto.birthday, []))
  {
  }

  /** After `remove`, whether or not it succeeded, `findOne` of that author fails with
      NotFound, and every other author is found as before. */
  lemma FindAfterRemove(s: Store, id: ObjectId)
    ensures var after := Remove(s, id).store;
      && FindOne(after, id) == Err(Failure(NotFound, [AuthorNotFound(id)]))
      && forall k :: k != id ==> FindOne(after, k) == FindOne(s, k)
  {
  }

  /** `{ ...toUpdate, ...author }`: fields present in the request replace the stored ones. */
  function MergeAuthor(stored: Author, patch: UpdateAuthorDto): (r: Author)
    ensures r.id == stored.id
    ensures r.bookIds == patch.bookIds
    ensures r.firstName == if patch.firstName.Some? then patch.firstName.value else stored.firstName
    ensures r.lastName == if patch.lastName.Some? then patch.lastName.value else stored.lastName
    ensures r.birthday == if patch.birthday.Some? then patch.birthday.value else stored.birthday
  {
    Author(
      stored.id,
      patch.firstName.GetOr(stored.firstName),
      patch.lastName.GetOr(stored.lastName),
      patch.birthday.GetOr(stored.birthday),
      patch.bookIds)
  }

  /** Applying the same patch twice gives what applying it once gave. */
  lemma MergeAuthorIdempotent(stored: Author, patch: UpdateAuthorDto)
    ensures MergeAuthor(MergeAuthor(stored, patch), patch) == MergeAuthor(stored, patch)
  {
  }

  /** `update(id, author)`: read the author, check that every requested book exists
      and none is requested twice, then write the merged record. */
  function Update(s: Store, id: ObjectId, dto: UpdateAuthorDto): (r: Step<()>)
    ensures id !in s.authors ==> r == Step(Err(Failure(NotFound, [AuthorNotFound(id)])), s)
    ensures id in s.authors ==>
      (r.out.Ok? <==> (forall k :: k in dto.bookIds ==> k in s.books) && NoDup(dto.bookIds))
    ensures id in s.authors && r.out.Err? ==> r == Step(Err(Failure(NotFound, [BooksNotResolved])), s)
    ensures r.store.books == s.books
    ensures r.out.Ok? ==> r.store.authors == s.authors[id := MergeAuthor(s.authors[id], dto)]
  {
    var toUpdate := FindOne(s, id);
    if toUpdate.Err? then Step(Err(toUpdate.failure), s)
    else
      var ids := dto.bookIds;
      var found := FindByIds(s.books, ids);
      if |ids| != |found| then Step(Err(Failure(NotFound, [BooksNotResolved])), s)
      else Step(Ok(()), s.(authors := s.authors[id := MergeAuthor(toUpdate.value, dto)]))
  }

  /** After a successful `update`, `findOne` returns the stored author merged with the request. */
  lemma FindAfterUpdate(s: Store, id: ObjectId, dto: UpdateAuthorDto)
    ensures var r := Update(s, id, dto);
      r.out.Ok? ==> id in s.authors && FindOne(r.store, id) == Ok(MergeAuthor(s.authors[id], dto))
  {
  }
}

=== FILE: book_service.dfy ===
/** The book service: book CRUD plus every compensating write to the author collection.

    Validation runs before any write; compensation writes are issued one author at
    a time, each a full save of the author document taken from a snapshot read
    earlier in the same call.
 */
module BookService {
  import opened Ids
  import opened Outcomes
  import opened Seqs
  import opened Store

  /** The NotFound message of `checkIfAuthorsExist`. */
  const AuthorsNotResolved := "Check if Author id is correct or it is not a duplicate"

  /** The NotFound message of the existence check inlined in `create`. */
  const CreateAuthorsNotResolved := "Check if Author id is correct"

  /** The BadRequest message of `findBookOrFail`. */
  function BookNotFound(id: ObjectId): string
  {
    "Book with " + ToString(id) + " was not found"
  }

  /** The body of a create request. */
  datatype CreateBookDto = CreateBookDto(
    title: string,
    iban: string,
    publishedAt: Date,
    authorIds: seq<ObjectId>)

  /** The body of an update request: every field may be absent. */
  datatype UpdateBookDto = UpdateBookDto(
    title: Option<string>,
    iban: Option<string>,
    publishedAt: Option<Date>,
    authorIds: Option<seq<ObjectId>>)

  /** Record-level validation of a book about to be saved: the constraint
      messages of every failing field, empty when the record is valid. */
  type Validator = Book -> seq<string>

  /** Every requested author exists and none is requested twice. */
  predicate Resolves(s: Store, ids: seq<ObjectId>)
  {
    (forall k :: k in ids ==> k in s.authors) && NoDup(ids)
  }

  /** `authors?.length ? authors : []`: an absent list is an empty one. */
  function Requested(authors: Option<seq<ObjectId>>): seq<ObjectId>
  {
    authors.GetOr([])
  }

  // ---------------------------------------------------------------------------
  // Queries
  // ---------------------------------------------------------------------------

  /** `findAll(id?)`: all books, or the books the given author lists. */
  function FindAll(s: Store, authorId: Option<ObjectId>): (r: Result<set<Book>>)
    ensures r.Err? <==> authorId.Some? && authorId.value !in s.authors
    ensures r.Err? ==> r.failure == Failure(NotFound, [AuthorNotFound(authorId.value)])
    ensures r.Ok? && authorId.None? ==> r.value == s.books.Values
    ensures r.Ok? && authorId.Some? ==>
      r.value == (set k | k in s.books && k in s.authors[authorId.value].bookIds :: s.books[k])
  {
    match authorId
    case None => Ok(s.books.Values)
    case Some(id) =>
      if id !in s.authors then Err(Failure(NotFound, [AuthorNotFound(id)]))
      else
        var found := FindByIds(s.books, s.authors[id].bookIds);
        var keys := FoundKeys(s.books, s.authors[id].bookIds);
        assert forall b :: b in found <==> exists i :: 0 <= i < |keys| && b == s.books[keys[i]];
        Ok(set b | b in found)
  }

  /** `findBookOrFail(id)` (and `findOne`, which returns it). */
  function FindBookOrFail(s: Store, id: ObjectId): (r: Result<Book>)
    ensures r.Ok? <==> id in s.books
    ensures r.Ok? ==> r.value == s.books[id]
    ensures r.Err? ==> r.failure == Failure(BadRequest, [BookNotFound(id)])
  {
    if id in s.books then Ok(s.books[id]) else Err(Failure(BadRequest, [BookNotFound(id)]))
  }

  /** `checkIfAuthorsExist(authors)`: the requested author documents, or NotFound when
      the store matched fewer documents than identifiers were requested. */
  function CheckIfAuthorsExist(s: Store, authors: Option<seq<ObjectId>>): (r: Result<seq<Author>>)
    ensures r.Ok? <==> Resolves(s, Requested(authors))
    ensures r.Err? ==> r.failure == Failure(NotFound, [AuthorsNotResolved])
    ensures r.Ok? ==> |r.value| == |Requested(authors)|
    ensures r.Ok? ==> forall i :: 0 <= i < |r.value| ==> r.value[i] == s.authors[Requested(authors)[i]]
    ensures Requested(authors) == [] ==> r == Ok([])
  {
    var ids := Requested(authors);
    var found := FindByIds(s.authors, ids);
    if |ids| != |found| then Err(Failure(NotFound, [AuthorsNotResolved])) else Ok(found)
  }

  /** A duplicated identifier fails like a missing one, although the same
      identifier requested once resolves. */
  lemma DuplicateRequestFails(s: Store, id: ObjectId)
    requires id in s.authors
    ensures CheckIfAuthorsExist(s, Some([id])) == Ok([s.authors[id]])
    ensures CheckIfAuthorsExist(s, Some([id, id])) == Err(Failure(NotFound, [AuthorsNotResolved]))
  {
    var one := FindByIds(s.authors, [id]);
    assert |one| == 1 && one[0] == s.authors[id];
    assert one == [s.authors[id]];
    var twice := [id, id];
    assert twice[0] == twice[1];
    assert !NoDup(twice);
  }

  // ---------------------------------------------------------------------------
  // Compensating writes to the author collection
  // ---------------------------------------------------------------------------

  /** The change a compensator makes to one author's `bookIds`. */
  datatype Edit = Prepend(bookId: ObjectId) | Strip(bookId: ObjectId)

  /** The author document a compensator saves: `{ ...author, bookIds: <edited> }`. */
  function Apply(e: Edit, a: Author): (r: Author)
    ensures r.(bookIds := a.bookIds) == a
  {
    match e
    case Prepend(b) => a.(bookIds := [b] + a.bookIds)
    case Strip(b) => a.(bookIds := Without(a.bookIds, b))
  }

  /** Save `Apply(e, a)` for every snapshot document `a`, in order; each save
      replaces the whole document stored under `a.id`. */
  function SaveEach(m: map<ObjectId, Author>, snapshot: seq<Author>, e: Edit): (r: map<ObjectId, Author>)
    ensures forall k :: k in r <==> k in m || k in IdsOf(snapshot)
    ensures forall k :: k in m && k !in IdsOf(snapshot) ==> r[k] == m[k]
    ensures NoDup(IdsOf(snapshot)) ==>
      forall i :: 0 <= i < |snapshot| ==> r[snapshot[i].id] == Apply(e, snapshot[i])
    decreases |snapshot|
  {
    if snapshot == [] then m
    else
      assert IdsOf(snapshot) == [snapshot[0].id] + IdsOf(snapshot[1..]);
      SaveEach(m[snapshot[0].id := Apply(e, snapshot[0])], snapshot[1..], e)
  }

  /** The saves are absolute: the result is `m` overridden by what the snapshot alone writes. */
  lemma {:induction false} SaveEachOverrides(m: map<ObjectId, Author>, snapshot: seq<Author>, e: Edit)
    ensures SaveEach(m, snapshot, e) == m + SaveEach(map[], snapshot, e)
    decreases |snapshot|
  {
    if snapshot != [] {
      var a, tail := snapshot[0], snapshot[1..];
      var w := Apply(e, a);
      var rest := SaveEach(map[], tail, e);
      calc {
        SaveEach(m, snapshot, e);
        SaveEach(m[a.id := w], tail, e);
        { SaveEachOverrides(m[a.id := w], tail, e); }
        m[a.id := w] + rest;
        { UnionSingleton(m, a.id, w); }
        (m + map[a.id := w]) + rest;
        { UnionAssoc(m, map[a.id := w], rest); }
        m + (map[a.id := w] + rest);
        { SaveEachOverrides(map[a.id := w], tail, e); }
        m + SaveEach(map[a.id := w], tail, e);
        { assert map[][a.id := w] == map[a.id := w]; }
        m + SaveEach(map[], snapshot, e);
      }
    }
  }

  /** Overriding with a one-entry map is an update. */
  lemma UnionSingleton<K, V>(m: map<K, V>, k: K, v: V)
    ensures m[k := v] == m + map[k := v]
  {
  }

  /** Overriding is associative. */
  lemma UnionAssoc<K, V>(a: map<K, V>, b: map<K, V>, c: map<K, V>)
    ensures a + (b + c) == (a + b) + c
  {
  }

  /** Replaying the saves of the same snapshot writes nothing new. */
  lemma SaveEachTwice(m: map<ObjectId, Author>, snapshot: seq<Author>, e: Edit)
    ensures SaveEach(SaveEach(m, snapshot, e), snapshot, e) == SaveEach(m, snapshot, e)
  {
    var w := SaveEach(map[], snapshot, e);
    SaveEachOverrides(m, snapshot, e);
    SaveEachOverrides(m + w, snapshot, e);
    assert (m + w) + w == m + w;
  }

  /** `updateAuthors(authors, bookId)`: each snapshot author is saved with `bookId` prepended. */
  function UpdateAuthors(m: map<ObjectId, Author>, snapshot: seq<Author>, bookId: ObjectId): (r: map<ObjectId, Author>)
    ensures forall k :: k in r <==> k in m || k in IdsOf(snapshot)
    ensures forall k :: k in m && k !in IdsOf(snapshot) ==> r[k] == m[k]
    ensures NoDup(IdsOf(snapshot)) ==> forall i :: 0 <= i < |snapshot| ==>
      r[snapshot[i].id] == snapshot[i].(bookIds := [bookId] + snapshot[i].bookIds)
  {
    SaveEach(m, snapshot, Prepend(bookId))
  }

  /** `deleteBooksFromAuthor(authors, bookId)`: each snapshot author is saved with every
      entry equal to `bookId` dropped, even when its list becomes empty; no author is deleted. */
  function DeleteBooksFromAuthor(m: map<ObjectId, Author>, snapshot: seq<Author>, bookId: ObjectId): (r: map<ObjectId, Author>)
    ensures forall k :: k in r <==> k in m || k in IdsOf(snapshot)
    ensures forall k :: k in m && k !in IdsOf(snapshot) ==> r[k] == m[k]
    ensures NoDup(IdsOf(snapshot)) ==> forall i :: 0 <= i < |snapshot| ==>
      r[snapshot[i].id] == snapshot[i].(bookIds := Without(snapshot[i].bookIds, bookId))
  {
    SaveEach(m, snapshot, Strip(bookId))
  }

  /** Saving edits of the documents found for resolved identifiers writes exactly those
      authors, each once, and keeps every document under its own identifier. */
  lemma SaveResolved(s: Store, ids: seq<ObjectId>, e: Edit)
    ensures WellKeyed(s) && Resolves(s, ids) ==>
      var after := SaveEach(s.authors, FindByIds(s.authors, ids), e);
      && after.Keys == s.authors.Keys
      && (forall k :: k in after ==> after[k].id == k)
      && forall k :: k in s.authors ==>
           after[k] == if k in ids then Apply(e, s.authors[k]) else s.authors[k]
  {
    if WellKeyed(s) && Resolves(s, ids) {
      var after := SaveEach(s.authors, FindByIds(s.authors, ids), e);
      SaveResolvedValues(s, ids, e);
      assert after.Keys == s.authors.Keys;
      forall k | k in after
        ensures after[k].id == k
      {
        assert after[k] == if k in ids then Apply(e, s.authors[k]) else s.authors[k];
      }
    }
  }

  /** The values half of `SaveResolved`. */
  lemma SaveResolvedValues(s: Store, ids: seq<ObjectId>, e: Edit)
    requires WellKeyed(s) && Resolves(s, ids)
    ensures var after := SaveEach(s.authors, FindByIds(s.authors, ids), e);
      && (forall k :: k in after <==> k in s.authors)
      && forall k :: k in s.authors ==>
           after[k] == if k in ids then Apply(e, s.authors[k]) else s.authors[k]
  {
    var found := FindByIds(s.authors, ids);
    assert IdsOf(found) == ids by {
      IdsOfFound(s, ids);
    }
    var after := SaveEach(s.authors, found, e);
    forall k | k in s.authors && k in ids
      ensures after[k] == Apply(e, s.authors[k])
    {
      var i :| 0 <= i < |ids| && ids[i] == k;
      assert found[i] == s.authors[k];
    }
  }

  // ---------------------------------------------------------------------------
  // create
  // ---------------------------------------------------------------------------

  /** The book `create` builds for resolved authors. */
  function NewBook(dto: CreateBookDto, newId: ObjectId, authors: seq<Author>): Book
  {
    Book(newId, dto.title, dto.iban, dto.publishedAt, IdsOf(authors))
  }

  /** `create(dto)`: resolve the authors, validate the record, save it under the
      store-assigned `newId`, then give every resolved author a back-reference,
      once through `updateAuthors` and once more through the loop that follows it,
      both from the same snapshot. */
  function Create(s: Store, dto: CreateBookDto, newId: ObjectId, validate: Validator): (r: Step<Book>)
    ensures !Resolves(s, dto.authorIds) ==>
      r == Step(Err(Failure(NotFound, [CreateAuthorsNotResolved])), s)
    ensures r.out.Err? ==> r.store == s
    ensures WellKeyed(s) && Resolves(s, dto.authorIds) ==>
      var book := Book(newId, dto.title, dto.iban, dto.publishedAt, dto.authorIds);
      && (r.out.Ok? <==> validate(book) == [])
      && (r.out.Err? ==> r.out.failure == Failure(NotFound, validate(book)))
      && (r.out.Ok? ==> r.out.value == book && r.store.books == s.books[newId := book])
  {
    var ids := dto.authorIds;
    var found := FindByIds(s.authors, ids);
    if |ids| != |found| then
      Step(Err(Failure(NotFound, [CreateAuthorsNotResolved])), s)
    else
      IdsOfFound(s, ids);
      var book := NewBook(dto, newId, found);
      var errors := validate(book);
      if |errors| > 0 then
        Step(Err(Failure(NotFound, errors)), s)
      else
        var saved := s.(books := s.books[newId := book]);
        var linked := saved.(authors := UpdateAuthors(saved.authors, found, newId));
        var relinked := linked.(authors := UpdateAuthors(linked.authors, found, newId));
        Step(Ok(book), relinked)
  }

  /** After `create`, each resolved author lists the new book exactly once more,
      in front of its previous list; no other author is written. */
  lemma CreateLinksAuthors(s: Store, dto: CreateBookDto, newId: ObjectId, validate: Validator)
    requires WellKeyed(s)
    requires Create(s, dto, newId, validate).out.Ok?
    ensures var after := Create(s, dto, newId, validate).store;
      && after.authors.Keys == s.authors.Keys
      && forall k :: k in s.authors ==>
           after.authors[k] == if k in dto.authorIds then Apply(Prepend(newId), s.authors[k]) else s.authors[k]
  {
    SaveEachTwice(s.authors, FindByIds(s.authors, dto.authorIds), Prepend(newId));
    SaveResolved(s, dto.authorIds, Prepend(newId));
  }

  // ---------------------------------------------------------------------------
  // remove
  // ---------------------------------------------------------------------------

  /** `remove(id)`: read the book, re-check its authors, strip the back-references,
      then delete the book. */
  function Remove(s: Store, id: ObjectId): (r: Step<()>)
    ensures id !in s.books ==> r == Step(Err(Failure(BadRequest, [BookNotFound(id)])), s)
    ensures id in s.books && !Resolves(s, s.books[id].authorIds) ==>
      r == Step(Err(Failure(NotFound, [AuthorsNotResolved])), s)
    ensures r.out.Ok? <==> id in s.books && Resolves(s, s.books[id].authorIds)
    ensures r.out.Ok? ==> r.store.books == s.books - {id}
    ensures r.out.Ok? && WellKeyed(s) ==>
      && r.store.authors.Keys == s.authors.Keys
      && forall k :: k in s.authors ==>
           r.store.authors[k] == if k in s.books[id].authorIds then Apply(Strip(id), s.authors[k]) else s.authors[k]
  {
    var book := FindBookOrFail(s, id);
    if book.Err? then Step(Err(book.failure), s)
    else
      var authors := CheckIfAuthorsExist(s, Some(book.value.authorIds));
      if authors.Err? then Step(Err(authors.failure), s)
      else
        var stripped := DeleteBooksFromAuthor(s.authors, authors.value, book.value.id);
        SaveResolved(s, book.value.authorIds, Strip(id));
        Step(Ok(()), Store(stripped, s.books - {id}))
  }

  // ---------------------------------------------------------------------------
  // Reading back what was written
  // ---------------------------------------------------------------------------

  /** After a successful `create`, `findBookOrFail` of the new identifier returns the
      book with the request's fields and authors. */
  lemma FindAfterCreate(s: Store, dto: CreateBookDto, newId: ObjectId, validate: Validator)
    requires WellKeyed(s)
    ensures var r := Create(s, dto, newId, validate);
      r.out.Ok? ==>
        FindBookOrFail(r.store, newId) == Ok(Book(newId, dto.title, dto.iban, dto.publishedAt, dto.authorIds))
  {
  }

  /** After a successful `remove`, `findBookOrFail` of that book fails with BadRequest,
      and every other book is found as before. */
  lemma FindAfterRemove(s: Store, id: ObjectId)
    ensures var r := Remove(s, id);
      r.out.Ok? ==>
        && FindBookOrFail(r.store, id) == Err(Failure(BadRequest, [BookNotFound(id)]))
        && forall k :: k != id ==> FindBookOrFail(r.store, k) == FindBookOrFail(s, k)
  {
  }

  // ---------------------------------------------------------------------------
  // update
  // ---------------------------------------------------------------------------

  /** `{ ...toUpdate, ...book }`: fields present in the request replace the stored ones. */
  function MergeBook(stored: Book, patch: UpdateBookDto): (r: Book)
    ensures r.id == stored.id
    ensures r.title == if patch.title.Some? then patch.title.value else stored.title
    ensures r.iban == if patch.iban.Some? then patch.iban.value else stored.iban
    ensures r.publishedAt == if patch.publishedAt.Some? then patch.publishedAt.value else stored.publishedAt
    ensures r.authorIds == if patch.authorIds.Some? then patch.authorIds.value else stored.authorIds
  {
    Book(
      stored.id,
      patch.title.GetOr(stored.title),
      patch.iban.GetOr(stored.iban),
      patch.publishedAt.GetOr(stored.publishedAt),
      patch.authorIds.GetOr(stored.authorIds))
  }

  /** Applying the same patch twice gives what applying it once gave. */
  lemma MergeBookIdempotent(stored: Book, patch: UpdateBookDto)
    ensures MergeBook(MergeBook(stored, patch), patch) == MergeBook(stored, patch)
  {
  }

  /** The diff inside `update`, computed on the string forms of the identifiers. */
  function AuthorDiff(persisted: seq<ObjectId>, desired: Option<seq<ObjectId>>): (d: Delta<string>)
    ensures Parsed(d.removed) == Minus(persisted, Requested(desired))
    ensures Parsed(d.added) == Minus(Requested(desired), persisted)
  {
    StringDiffIsIdDiff(persisted, Requested(desired));
    StringDiffIsIdDiff(Requested(desired), persisted);
    Diff(Strings(persisted), Strings(Requested(desired)))
  }

  /** Because `toString` is injective, filtering string forms selects the same
      identifiers, in the same order, as filtering the identifiers themselves. */
  lemma {:induction false} StringDiffIsIdDiff(xs: seq<ObjectId>, ys: seq<ObjectId>)
    ensures Parsed(Minus(Strings(xs), Strings(ys))) == Minus(xs, ys)
  {
    if xs != [] {
      var x, tail := xs[0], xs[1..];
      var rest := Minus(Strings(tail), Strings(ys));
      StringDiffIsIdDiff(tail, ys);
      assert Minus(Strings(xs), Strings(ys)) == if x in ys then rest else [ToString(x)] + rest by {
        assert Strings(xs) == [ToString(x)] + Strings(tail);
        InStrings(ys, ToString(x));
        ParseToString(x);
      }
      assert Parsed([ToString(x)] + rest) == [x] + Parsed(rest) by {
        ParseToString(x);
      }
    }
  }

  /** An absent list on either side counts as empty: with no desired list every
      persisted author is removed; with nothing persisted every desired author is added. */
  lemma AuthorDiffOfEmpty(persisted: seq<ObjectId>, desired: seq<ObjectId>)
    ensures Parsed(AuthorDiff(persisted, None).removed) == persisted
    ensures AuthorDiff(persisted, None).added == []
    ensures AuthorDiff([], Some(desired)).removed == []
    ensures Parsed(AuthorDiff([], Some(desired)).added) == desired
  {
    MinusDisjoint(persisted, []);
    MinusDisjoint(desired, []);
  }

  /** The first compensation of `update`: when some authors were removed, re-check
      them and strip the book from each. Nothing is written when the check fails. */
  function StripRemoved(s: Store, bookId: ObjectId, removed: seq<string>): (r: Result<Store>)
    ensures r.Ok? <==> Resolves(s, Parsed(removed))
    ensures r.Err? ==> r.failure == Failure(NotFound, [AuthorsNotResolved])
    ensures removed == [] ==> r == Ok(s)
    ensures r.Ok? ==> r.value.books == s.books
    ensures r.Ok? && WellKeyed(s) ==>
      && WellKeyed(r.value)
      && r.value.authors.Keys == s.authors.Keys
      && forall k :: k in s.authors ==>
           r.value.authors[k] == if k in Parsed(removed) then Apply(Strip(bookId), s.authors[k]) else s.authors[k]
  {
    if |removed| == 0 then Ok(s)
    else
      var toDelete := CheckIfAuthorsExist(s, Some(Parsed(removed)));
      if toDelete.Err? then Err(toDelete.failure)
      else
        SaveResolved(s, Parsed(removed), Strip(bookId));
        Ok(s.(authors := DeleteBooksFromAuthor(s.authors, toDelete.value, bookId)))
  }

  /** The second compensation of `update`: when some authors were added, re-check
      them and prepend the book to each. */
  function LinkAdded(s: Store, bookId: ObjectId, added: seq<string>): (r: Step<()>)
    ensures r.out.Ok? <==> Resolves(s, Parsed(added))
    ensures r.out.Err? ==> r == Step(Err(Failure(NotFound, [AuthorsNotResolved])), s)
    ensures added == [] ==> r == Step(Ok(()), s)
    ensures r.store.books == s.books
    ensures r.out.Ok? && WellKeyed(s) ==>
      && WellKeyed(r.store)
      && r.store.authors.Keys == s.authors.Keys
      && forall k :: k in s.authors ==>
           r.store.authors[k] == if k in Parsed(added) then Apply(Prepend(bookId), s.authors[k]) else s.authors[k]
  {
    if |added| == 0 then Step(Ok(()), s)
    else
      var toLink := CheckIfAuthorsExist(s, Some(Parsed(added)));
      if toLink.Err? then Step(Err(toLink.failure), s)
      else
        SaveResolved(s, Parsed(added), Prepend(bookId));
        Step(Ok(()), s.(authors := UpdateAuthors(s.authors, toLink.value, bookId)))
  }

  /** `update(id, book)`: validate the desired authors, read the book, strip the
      removed authors, save the merged book, then link the added authors. */
  function Update(s: Store, id: ObjectId, dto: UpdateBookDto): (r: Step<()>)
    ensures !Resolves(s, Requested(dto.authorIds)) ==>
      r == Step(Err(Failure(NotFound, [AuthorsNotResolved])), s)
    ensures Resolves(s, Requested(dto.authorIds)) && id !in s.books ==>
      r == Step(Err(Failure(BadRequest, [BookNotFound(id)])), s)
    ensures && Resolves(s, Requested(dto.authorIds))
            && id in s.books
            && !Resolves(s, Minus(s.books[id].authorIds, Requested(dto.authorIds)))
            ==> r == Step(Err(Failure(NotFound, [AuthorsNotResolved])), s)
    ensures WellKeyed(s) ==>
      (r.out.Ok? <==> && Resolves(s, Requested(dto.authorIds))
                      && id in s.books
                      && Resolves(s, Minus(s.books[id].authorIds, Requested(dto.authorIds))))
    ensures r.out.Ok? ==> id in s.books
    ensures r.out.Ok? && WellKeyed(s) ==> r.store.books == s.books[id := MergeBook(s.books[id], dto)]
  {
    var desired := CheckIfAuthorsExist(s, dto.authorIds);
    if desired.Err? then Step(Err(desired.failure), s)
    else
      var toUpdate := FindBookOrFail(s, id);
      if toUpdate.Err? then Step(Err(toUpdate.failure), s)
      else
        var delta := AuthorDiff(toUpdate.value.authorIds, dto.authorIds);
        var update := MergeBook(toUpdate.value, dto);
        var stripped := StripRemoved(s, id, delta.removed);
        if stripped.Err? then Step(Err(stripped.failure), s)
        else
          var saved := stripped.value.(books := stripped.value.books[update.id := update]);
          assert WellKeyed(s) ==> Resolves(saved, Parsed(delta.added));
          LinkAdded(saved, update.id, delta.added)
  }

  /** After a successful `update`, `findBookOrFail` returns the stored book merged with the request. */
  lemma FindAfterUpdate(s: Store, id: ObjectId, dto: UpdateBookDto)
    requires WellKeyed(s)
    ensures var r := Update(s, id, dto);
      r.out.Ok? ==> id in s.books && FindBookOrFail(r.store, id) == Ok(MergeBook(s.books[id], dto))
  {
  }

  /** Every failure of `update` leaves both collections as they were: the check of the
      added authors, the only one issued after a write, cannot fail, because those
      authors were already resolved by the first check and stripping deletes no author. */
  lemma UpdateFailureWritesNothing(s: Store, id: ObjectId, dto: UpdateBookDto)
    requires WellKeyed(s)
    ensures Update(s, id, dto).out.Err? ==> Update(s, id, dto).store == s
  {
    var D := Requested(dto.authorIds);
    if Resolves(s, D) && id in s.books {
      var P := s.books[id].authorIds;
      var delta := AuthorDiff(P, dto.authorIds);
      var stripped := StripRemoved(s, id, delta.removed);
      if stripped.Ok? {
        var update := MergeBook(s.books[id], dto);
        var saved := stripped.value.(books := stripped.value.books[update.id := update]);
        assert Parsed(delta.added) == Minus(D, P);
        assert Resolves(saved, Parsed(delta.added));
      }
    }
  }

  /** What a successful `update` writes to the author collection: the removed authors lose
      the book, the added authors get it prepended, and no other author is written. */
  lemma UpdateCompensates(s: Store, id: ObjectId, dto: UpdateBookDto)
    requires WellKeyed(s)
    requires Update(s, id, dto).out.Ok?
    ensures id in s.books
    ensures var after := Update(s, id, dto).store;
      var persisted, desired := s.books[id].authorIds, Requested(dto.authorIds);
      && WellKeyed(after)
      && after.authors.Keys == s.authors.Keys
      && forall k :: k in s.authors ==>
           after.authors[k] ==
             if k in Minus(persisted, desired) then Apply(Strip(id), s.authors[k])
             else if k in Minus(desired, persisted) then Apply(Prepend(id), s.authors[k])
             else s.authors[k]
  {
    var P, D := s.books[id].authorIds, Requested(dto.authorIds);
    var delta := AuthorDiff(P, dto.authorIds);
    var stripped := StripRemoved(s, id, delta.removed).value;
    var update := MergeBook(s.books[id], dto);
    var saved := stripped.(books := stripped.books[update.id := update]);
    assert WellKeyed(saved);
    var after := Update(s, id, dto).store;
    assert after == LinkAdded(saved, id, delta.added).store;
    forall k | k in s.authors
      ensures after.authors[k] ==
        if k in Minus(P, D) then Apply(Strip(id), s.authors[k])
        else if k in Minus(D, P) then Apply(Prepend(id), s.authors[k])
        else s.authors[k]
    {
      if k in Minus(D, P) {
        assert k !in Minus(P, D);
        assert saved.authors[k] == s.authors[k];
      }
    }
  }
}

=== FILE: ids.dfy ===
/** Store-assigned identifiers (MongoDB ObjectIDs) and their canonical string form.

    The services compare identifiers in two ways: by `ObjectID.equals` and by
    comparing `toString()` forms. The model treats an identifier as an opaque
    value with decidable equality whose string form is injective, and takes every
    identifier string to be in the canonical lower-case hexadecimal form that
    `toString()` produces; only on such strings do both comparisons agree.
 */
module Ids {

  /** An identifier, known by its canonical hexadecimal rendering. */
  datatype ObjectId = ObjectId(hex: string)

  /** `id.toString()`. */
  function ToString(id: ObjectId): (s: string)
  {
    id.hex
  }

  /** `new ObjectID(s)` for a well-formed string. */
  function Parse(s: string): (id: ObjectId)
  {
    ObjectId(s)
  }

  /** Parsing the string form gives the identifier back. */
  lemma ParseToString(id: ObjectId)
    ensures Parse(ToString(id)) == id
  {
  }

  /** Two identifiers with the same string form are the same identifier. */
  lemma ToStringInjective(a: ObjectId, b: ObjectId)
    ensures ToString(a) == ToString(b) <==> a == b
  {
  }

  /** The string forms of a list of identifiers, in order. */
  function Strings(ids: seq<ObjectId>): (ss: seq<string>)
    ensures |ss| == |ids|
    ensures forall i :: 0 <= i < |ids| ==> ss[i] == ToString(ids[i])
  {
    seq(|ids|, i requires 0 <= i < |ids| => ToString(ids[i]))
  }

  /** The identifiers parsed from a list of strings, in order. */
  function Parsed(ss: seq<string>): (ids: seq<ObjectId>)
    ensures |ids| == |ss|
    ensures forall i :: 0 <= i < |ss| ==> ids[i] == Parse(ss[i])
  {
    seq(|ss|, i requires 0 <= i < |ss| => Parse(ss[i]))
  }

  /** A string occurs among the string forms exactly when its parse occurs among the identifiers. */
  lemma InStrings(ids: seq<ObjectId>, s: string)
    ensures s in Strings(ids) <==> Parse(s) in ids
  {
    if Parse(s) in ids {
      var i :| 0 <= i < |ids| && ids[i] == Parse(s);
      assert Strings(ids)[i] == s;
    }
  }
}

=== FILE: link_invariant.dfy ===
/** The two-way link invariant across the services: a book lists an author exactly
    when the author lists the book. The book service keeps it through `create`,
    `remove` and `update` (given a desired author list). The author service issues
    no compensating write: its `create` and `remove` keep the invariant, but `remove`
    leaves books listing the deleted author, and `update` can break the invariant.
 */
module LinkInvariant {
  import opened Ids
  import opened Outcomes
  import opened Seqs
  import opened Store
  import BookService
  import AuthorService

  /** Book `create` keeps the invariant when the store hands out a fresh identifier. */
  lemma BookCreateKeepsLinks(s: Store, dto: BookService.CreateBookDto, newId: ObjectId, validate: BookService.Validator)
    requires WellKeyed(s) && Linked(s) && FreshBookId(s, newId)
    ensures var after := BookService.Create(s, dto, newId, validate).store;
      WellKeyed(after) && Linked(after)
  {
    var r := BookService.Create(s, dto, newId, validate);
    if r.out.Ok? {
      BookService.CreateLinksAuthors(s, dto, newId, validate);
      var after := r.store;
      var D := dto.authorIds;
      assert after.books == s.books[newId := r.out.value];
      assert r.out.value.authorIds == D;
      forall k | k in after.authors
        ensures after.authors[k].id == k
      {
        assert after.authors[k].(bookIds := s.authors[k].bookIds) == s.authors[k];
      }
      forall a, b | a in after.authors && b in after.books
        ensures b in after.authors[a].bookIds <==> a in after.books[b].authorIds
      {
        if a in D {
          assert after.authors[a].bookIds == [newId] + s.authors[a].bookIds;
        }
      }
    }
  }

  /** After `create` with a fresh identifier, every resolved author lists the new book exactly once. */
  lemma BookCreateListsOnce(s: Store, dto: BookService.CreateBookDto, newId: ObjectId, validate: BookService.Validator, a: ObjectId)
    requires WellKeyed(s) && FreshBookId(s, newId)
    ensures var r := BookService.Create(s, dto, newId, validate);
      r.out.Ok? && a in dto.authorIds ==>
        a in r.store.authors && multiset(r.store.authors[a].bookIds)[newId] == 1
  {
    if BookService.Create(s, dto, newId, validate).out.Ok? && a in dto.authorIds {
      BookService.CreateLinksAuthors(s, dto, newId, validate);
      var before := s.authors[a].bookIds;
      assert newId !in before;
      assert multiset([newId] + before) == multiset{newId} + multiset(before);
    }
  }

  /** Book `remove` keeps the invariant. */
  lemma BookRemoveKeepsLinks(s: Store, id: ObjectId)
    requires WellKeyed(s) && Linked(s)
    ensures var after := BookService.Remove(s, id).store;
      WellKeyed(after) && Linked(after)
  {
    var r := BookService.Remove(s, id);
    if r.out.Ok? {
      var after := r.store;
      var L := s.books[id].authorIds;
      forall k | k in after.authors
        ensures after.authors[k].id == k
      {
        assert after.authors[k].(bookIds := s.authors[k].bookIds) == s.authors[k];
      }
      forall a, b | a in after.authors && b in after.books
        ensures b in after.authors[a].bookIds <==> a in after.books[b].authorIds
      {
        assert b != id;
        if a in L {
          assert after.authors[a].bookIds == Without(s.authors[a].bookIds, id);
        }
      }
    }
  }

  /** Book `update` with an author list keeps the invariant. */
  lemma BookUpdateKeepsLinks(s: Store, id: ObjectId, dto: BookService.UpdateBookDto)
    requires WellKeyed(s) && Linked(s) && dto.authorIds.Some?
    ensures var after := BookService.Update(s, id, dto).store;
      WellKeyed(after) && Linked(after)
  {
    var r := BookService.Update(s, id, dto);
    if r.out.Err? {
      BookService.UpdateFailureWritesNothing(s, id, dto);
    } else {
      BookService.UpdateCompensates(s, id, dto);
      var merged := BookService.MergeBook(s.books[id], dto);
      RelinkKeepsLinks(s, r.store, id, merged);
    }
  }

  /** Replacing book `id` by `merged` keeps the invariant when the authors leaving its list
      lose the book, the authors joining it gain the book, and no other author changes. */
  lemma RelinkKeepsLinks(s: Store, after: Store, id: ObjectId, merged: Book)
    requires Linked(s) && id in s.books
    requires after.books == s.books[id := merged]
    requires after.authors.Keys == s.authors.Keys
    requires forall k :: k in s.authors ==>
      after.authors[k] ==
        if k in Minus(s.books[id].authorIds, merged.authorIds) then BookService.Apply(BookService.Strip(id), s.authors[k])
        else if k in Minus(merged.authorIds, s.books[id].authorIds) then BookService.Apply(BookService.Prepend(id), s.authors[k])
        else s.authors[k]
    ensures Linked(after)
  {
    var P, D := s.books[id].authorIds, merged.authorIds;
    forall a, b | a in after.authors && b in after.books
      ensures b in after.authors[a].bookIds <==> a in after.books[b].authorIds
    {
      if a in Minus(P, D) {
        assert after.authors[a].bookIds == Without(s.authors[a].bookIds, id);
      } else if a in Minus(D, P) {
        assert after.authors[a].bookIds == [id] + s.authors[a].bookIds;
      }
    }
  }

  /** Without an author list, a successful `update` strips the book from every author
      while the book keeps its old list: every link the book had is now one-sided. */
  lemma BookUpdateWithoutAuthorsUnlinks(s: Store, id: ObjectId, dto: BookService.UpdateBookDto)
    requires WellKeyed(s) && Linked(s) && dto.authorIds.None?
    requires BookService.Update(s, id, dto).out.Ok?
    ensures var after := BookService.Update(s, id, dto).store;
      && after.books[id].authorIds == s.books[id].authorIds
      && forall a :: a in after.authors ==> id !in after.authors[a].bookIds
  {
    BookService.UpdateCompensates(s, id, dto);
    var after := BookService.Update(s, id, dto).store;
    var P := s.books[id].authorIds;
    MinusDisjoint(P, []);
    forall a | a in after.authors
      ensures id !in after.authors[a].bookIds
    {
      if a in P {
        assert after.authors[a].bookIds == Without(s.authors[a].bookIds, id);
      }
    }
  }

  /** Author `create` keeps the invariant when the store hands out a fresh identifier. */
  lemma AuthorCreateKeepsLinks(s: Store, dto: AuthorService.CreateAuthorDto, newId: ObjectId)
    requires Linked(s) && FreshAuthorId(s, newId)
    ensures Linked(AuthorService.Create(s, dto, newId).store)
  {
  }

  /** Author `remove` keeps the invariant: it speaks only of pairs whose author is stored. */
  lemma AuthorRemoveKeepsLinks(s: Store, a: ObjectId)
    requires Linked(s)
    ensures Linked(AuthorService.Remove(s, a).store)
  {
  }

  /** Author `remove` deletes no book and strips no back-reference: every book that
      listed the author still does, so a later book `remove` of it fails its author check. */
  lemma AuthorRemoveStrandsBooks(s: Store, a: ObjectId, b: ObjectId)
    requires b in s.books && a in s.books[b].authorIds
    requires AuthorService.Remove(s, a).out.Ok?
    ensures var after := AuthorService.Remove(s, a).store;
      && after.books[b] == s.books[b]
      && BookService.Remove(after, b) == Step(Err(Failure(NotFound, [BookService.AuthorsNotResolved])), after)
  {
  }

  /** A book stranded by an author `remove` can no longer be updated: either the desired
      list names the deleted author and fails the first check, or it leaves the author
      out and the re-check of the removed authors fails. */
  lemma StrandedBookCannotUpdate(s: Store, a: ObjectId, b: ObjectId, dto: BookService.UpdateBookDto)
    requires b in s.books && a in s.books[b].authorIds
    requires AuthorService.Remove(s, a).out.Ok?
    ensures var after := AuthorService.Remove(s, a).store;
      BookService.Update(after, b, dto) == Step(Err(Failure(NotFound, [BookService.AuthorsNotResolved])), after)
  {
    var after := AuthorService.Remove(s, a).store;
    var D := BookService.Requested(dto.authorIds);
    if BookService.Resolves(after, D) {
      assert a !in D;
      assert a in Minus(after.books[b].authorIds, D);
    }
  }

  /** Author `update` overwrites the author's list without compensation: a successful
      update that drops a book the author is linked with leaves that book listing the
      author, so the store is no longer linked. */
  lemma AuthorUpdateDropUnlinks(s: Store, a: ObjectId, b: ObjectId, dto: AuthorService.UpdateAuthorDto)
    requires a in s.authors && b in s.books && a in s.books[b].authorIds
    requires b !in dto.bookIds
    requires AuthorService.Update(s, a, dto).out.Ok?
    ensures !Linked(AuthorService.Update(s, a, dto).store)
  {
    var after := AuthorService.Update(s, a, dto).store;
    assert after.authors[a].bookIds == dto.bookIds;
    assert a in after.books[b].authorIds;
  }

  /** A linked store that an author `update` unlinks: a witness that the premises of
      `AuthorUpdateDropUnlinks` can be met from a linked store. */
  lemma AuthorUpdateCanUnlink()
    ensures var a, b := ObjectId("a"), ObjectId("b");
      var s := Store(map[a := Author(a, "f", "l", 0, [b])], map[b := Book(b, "t", "i", 0, [a])]);
      var after := AuthorService.Update(s, a, AuthorService.UpdateAuthorDto(None, None, None, [])).store;
      Linked(s) && !Linked(after)
  {
    var a, b := ObjectId("a"), ObjectId("b");
    var s := Store(map[a := Author(a, "f", "l", 0, [b])], map[b := Book(b, "t", "i", 0, [a])]);
    var after := AuthorService.Update(s, a, AuthorService.UpdateAuthorDto(None, None, None, [])).store;
    assert after.authors[a].bookIds == [];
    assert a in after.books[b].authorIds;
  }
}

=== FILE: outcomes.dfy ===
/** Optional values and the two kinds of failure the services raise. */
module Outcomes {

  /** A field that may be absent from a request body. */
  datatype Option<T> = None | Some(value: T) {

    /** The value if present, otherwise `default` (the `{ ...old, ...patch }` rule for one field). */
    function GetOr(default: T): T
    {
      match this
      case Some(v) => v
      case None => default
    }
  }

  /** The HTTP exception kinds: `NotFoundException` and `BadRequestException`. */
  datatype Status = NotFound | BadRequest

  /** A thrown exception: its kind and its message(s). */
  datatype Failure = Failure(status: Status, messages: seq<string>)

  /** The value a service call resolves to, or the exception it throws. */
  datatype Result<T> = Ok(value: T) | Err(failure: Failure)
}

=== FILE: seqs.dfy ===
/** Sequence operations the relationship bookkeeping is built from. */
module Seqs {

  /** No entry occurs twice. */
  predicate NoDup<T(==,!new)>(xs: seq<T>)
  {
    forall i, j :: 0 <= i < j < |xs| ==> xs[i] != xs[j]
  }

  /** Appending an entry not yet present keeps a list duplicate-free. */
  lemma NoDupSnoc<T(!new)>(xs: seq<T>, x: T)
    requires NoDup(xs) && x !in xs
    ensures NoDup(xs + [x])
  {
  }

  /** The entries of `xs` that do not occur in `ys`, in their original order:
      JavaScript's `xs.filter(x => !ys.includes(x))`. */
  function Minus<T(==,!new)>(xs: seq<T>, ys: seq<T>): (r: seq<T>)
    ensures forall x :: x in r <==> x in xs && x !in ys
    ensures NoDup(xs) ==> NoDup(r)
    ensures |r| <= |xs|
  {
    if xs == [] then []
    else if xs[0] in ys then
      assert xs == [xs[0]] + xs[1..];
      Minus(xs[1..], ys)
    else
      assert xs == [xs[0]] + xs[1..];
      [xs[0]] + Minus(xs[1..], ys)
  }

  /** Filtering drops every occurrence of an excluded entry and keeps every occurrence of the others. */
  lemma {:induction false} MinusCounts<T(!new)>(xs: seq<T>, ys: seq<T>, x: T)
    ensures multiset(Minus(xs, ys))[x] == if x in ys then 0 else multiset(xs)[x]
  {
    if xs != [] {
      MinusCounts(xs[1..], ys, x);
      assert xs == [xs[0]] + xs[1..];
    }
  }

  /** Filtering keeps the relative order: it distributes over concatenation. */
  lemma {:induction false} MinusAppend<T(!new)>(xs: seq<T>, zs: seq<T>, ys: seq<T>)
    ensures Minus(xs + zs, ys) == Minus(xs, ys) + Minus(zs, ys)
  {
    if xs == [] {
      assert xs + zs == zs;
    } else {
      assert (xs + zs)[1..] == xs[1..] + zs;
      MinusAppend(xs[1..], zs, ys);
    }
  }

  /** Filtering out nothing changes nothing. */
  lemma {:induction false} MinusDisjoint<T(!new)>(xs: seq<T>, ys: seq<T>)
    requires forall x :: x in xs ==> x !in ys
    ensures Minus(xs, ys) == xs
  {
    if xs != [] {
      MinusDisjoint(xs[1..], ys);
      assert xs == [xs[0]] + xs[1..];
    }
  }

  /** `xs` with every entry equal to `x` dropped, the others kept in order. */
  function Without<T(==,!new)>(xs: seq<T>, x: T): (r: seq<T>)
    ensures x !in r
    ensures forall y :: y != x ==> (y in r <==> y in xs)
  {
    Minus(xs, [x])
  }

  /** The two halves of an old/new comparison of relationship lists. */
  datatype Delta<T> = Delta(removed: seq<T>, added: seq<T>)

  /** removed = persisted minus desired, added = desired minus persisted. */
  function Diff<T(==,!new)>(persisted: seq<T>, desired: seq<T>): (d: Delta<T>)
    ensures forall x :: x in d.removed <==> x in persisted && x !in desired
    ensures forall x :: x in d.added <==> x in desired && x !in persisted
    ensures NoDup(persisted) ==> NoDup(d.removed)
    ensures NoDup(desired) ==> NoDup(d.added)
  {
    Delta(Minus(persisted, desired), Minus(desired, persisted))
  }

  /** No identifier is both removed and added. */
  lemma DiffDisjoint<T(!new)>(persisted: seq<T>, desired: seq<T>, x: T)
    ensures !(x in Diff(persisted, desired).removed && x in Diff(persisted, desired).added)
  {
  }

  /** Both halves are empty exactly when the two lists hold the same entries. */
  lemma {:induction false} DiffEmptyIff<T(!new)>(persisted: seq<T>, desired: seq<T>)
    ensures Diff(persisted, desired) == Delta([], [])
        <==> (forall x :: x in persisted <==> x in desired)
  {
    var d := Diff(persisted, desired);
    if d.removed != [] {
      assert d.removed[0] in d.removed;
    }
    if d.added != [] {
      assert d.added[0] in d.added;
    }
  }

  /** Only the entries matter, not their order or multiplicity: permuting either list
      yields a diff with the same entries. */
  lemma DiffOrderIndependent<T(!new)>(p1: seq<T>, p2: seq<T>, d1: seq<T>, d2: seq<T>, x: T)
    requires multiset(p1) == multiset(p2) && multiset(d1) == multiset(d2)
    ensures x in Diff(p1, d1).removed <==> x in Diff(p2, d2).removed
    ensures x in Diff(p1, d1).added <==> x in Diff(p2, d2).added
  {
    assert x in p1 <==> x in multiset(p1);
    assert x in p2 <==> x in multiset(p2);
    assert x in d1 <==> x in multiset(d1);
    assert x in d2 <==> x in multiset(d2);
  }
}

=== FILE: store.dfy ===
/** The two document collections the services share, and the store queries they use.

    Each record keeps its own list of the other side's identifiers; the store has
    no joins, no foreign keys and no transactions. A service call is one atomic,
    sequential transition from one `Store` to the next.
 */
module Store {
  import opened Ids
  import opened Outcomes
  import opened Seqs

  /** A calendar date, kept opaque. */
  type Date = int

  /** An author document; `bookIds` is its side of the relationship. */
  datatype Author = Author(
    id: ObjectId,
    firstName: string,
    lastName: string,
    birthday: Date,
    bookIds: seq<ObjectId>)

  /** A book document; `authorIds` is its side of the relationship. */
  datatype Book = Book(
    id: ObjectId,
    title: string,
    iban: string,
    publishedAt: Date,
    authorIds: seq<ObjectId>)

  /** The author collection and the book collection, keyed by identifier. */
  datatype Store = Store(authors: map<ObjectId, Author>, books: map<ObjectId, Book>)

  /** What a writing service call leaves behind: its outcome and the collections
      after every write it issued (also the writes issued before it threw). */
  datatype Step<T> = Step(out: Result<T>, store: Store)

  /** Every document is stored under its own `_id`. */
  predicate WellKeyed(s: Store)
  {
    && (forall k :: k in s.authors ==> s.authors[k].id == k)
    && (forall k :: k in s.books ==> s.books[k].id == k)
  }

  /** The two-way link invariant: a book lists an author exactly when that author lists the book. */
  ghost predicate Linked(s: Store)
  {
    forall a, b :: a in s.authors && b in s.books ==>
      (b in s.authors[a].bookIds <==> a in s.books[b].authorIds)
  }

  /** A store-assigned identifier for a new book: unused, and not referenced by any author. */
  ghost predicate FreshBookId(s: Store, id: ObjectId)
  {
    && id !in s.books
    && forall a :: a in s.authors ==> id !in s.authors[a].bookIds
  }

  /** A store-assigned identifier for a new author: unused, and not referenced by any book. */
  ghost predicate FreshAuthorId(s: Store, id: ObjectId)
  {
    && id !in s.authors
    && forall b :: b in s.books ==> id !in s.books[b].authorIds
  }

  /** The message of the NotFound raised when an author lookup by id fails. */
  function AuthorNotFound(id: ObjectId): string
  {
    "Author with " + ToString(id) + " was not found"
  }

  /** The keys `findByIds(ids)` matches: the requested identifiers present in `m`,
      each once, in order of first request. */
  function FoundKeys<V>(m: map<ObjectId, V>, ids: seq<ObjectId>): (r: seq<ObjectId>)
    ensures forall k :: k in r <==> k in ids && k in m
    ensures NoDup(r)
    ensures |r| <= |ids|
    ensures |r| == |ids| <==> (forall k :: k in ids ==> k in m) && NoDup(ids)
    ensures |r| == |ids| ==> r == ids
    decreases |ids|
  {
    if ids == [] then []
    else
      var init := ids[..|ids| - 1];
      var k := ids[|ids| - 1];
      assert ids == init + [k];
      var found := FoundKeys(m, init);
      if k in m && k !in init then
        NoDupSnoc(found, k);
        found + [k]
      else
        found
  }

  /** `repository.findByIds(ids)`: the documents whose identifiers were requested,
      each once; missing identifiers are skipped silently. */
  function FindByIds<V>(m: map<ObjectId, V>, ids: seq<ObjectId>): (r: seq<V>)
    ensures |r| == |FoundKeys(m, ids)|
    ensures forall i :: 0 <= i < |r| ==> r[i] == m[FoundKeys(m, ids)[i]]
  {
    var keys := FoundKeys(m, ids);
    seq(|keys|, i requires 0 <= i < |keys| => m[keys[i]])
  }

  /** The identifiers of a list of author documents, in order. */
  function IdsOf(authors: seq<Author>): (ids: seq<ObjectId>)
    ensures |ids| == |authors|
    ensures forall i :: 0 <= i < |authors| ==> ids[i] == authors[i].id
  {
    seq(|authors|, i requires 0 <= i < |authors| => authors[i].id)
  }

  /** In a well-keyed collection, the documents found carry exactly the identifiers found. */
  lemma IdsOfFound(s: Store, ids: seq<ObjectId>)
    ensures WellKeyed(s) ==> IdsOf(FindByIds(s.authors, ids)) == FoundKeys(s.authors, ids)
  {
  }
}
